=== FILE: README.md ===
# homekit-ratgdo core, modelled in Dafny

This project models three sequential pieces of the homekit-ratgdo garage-door
controller and proves properties of them.

- **The web page's `Semaphore`** (`semaphore.dfy`, module `Semaphore`). This is
  the counting semaphore the status page uses to serialise its fetch requests
  to the device. The semaphore is an immutable record: capacity, next-id
  counter, held ids, FIFO of waiting ids, and the number of scheduled drains.
  - `tryAcquire`, `acquire` and `release` are pure functions.
  - The `setTimeout(..., 0)` that `acquire` and `release` use becomes a
    pending-drain counter, and a `FireTimer` event runs the drain.
  - A promise resolving is modelled as the waiter's id moving from `waiting`
    to `held`.
  - `Run` applies any sequence of calls and timer firings.
- **`msToTime`** (`uptime.dfy`, module `Uptime`, with decimal rendering in
  `decimal.dfy`). It renders an uptime in milliseconds as `days:hh:mm:ss`.
  Its partner is a reader for that text, `ParseUptime`. The rendered text
  reads back as fields that are in range and add up to the whole seconds of
  the duration.
- **The Security+ 2.0 protocol state machine** (`comms.dfy`, module `Comms`).
  - Received `Status`, `Lock`, `Light` and `Motion` packets update the door
    record.
  - HomeKit commands queue packets in the bounded outgoing queue.
  - The transmit step sends the queue's head. It drops the head only when
    there was no collision, and advances the 32-bit rolling code when the
    action asks for it.
  - `comms_runs.dfy` (module `CommsRuns`) interleaves all of these in runs
    and proves what every run keeps:
    - the queue stays within capacity and holds only well-formed actions;
    - an active door stays active;
    - the door's target stays coherent with its state;
    - the rolling code counts exactly the sent actions that ask for it;
    - with an idle line, actions leave the queue in order.

`wrappers.dfy` holds the `Option` type the modules share.

Details of the semaphore's code that the model keeps:
- A failed `tryAcquire` still uses up an id.
- A queued caller is granted the id it was issued when it called `acquire`;
  the drain does not allocate a new one.
- The capacity is not checked, so zero is allowed.

Two consequences of the queue's assumed drop-on-full behaviour are proved
rather than assumed away:
- A door command issued when only one place is free queues the button press
  without its release (`CommsRuns.DoorCommandLosesRelease`).
- Closing an opening door with two places free queues the stop and loses the
  close (`CommsRuns.CloseWhileOpeningLosesClose`).

A further observation: before the door is active, a `Stopped` report gives it
a closed target, but the same report received next gives it an open target
(`CommsRuns.StoppedReportOnActivation`).

## Model

| member | source | states |
|---|---|---|
| Semaphore.New | src/www/functions.js:356-371 | a new semaphore has the given capacity, one when none is given (not validated), an id counter at zero, nobody holding or waiting, and satisfies the invariant |
| Semaphore.HasAvailableMeansRoom | src/www/functions.js:429-431 | in a valid state a slot is free exactly when granting the next id keeps the invariant |
| Semaphore.NextId | src/www/functions.js:425-427 | the id handed out is the counter's old value, the counter advances by exactly one and nothing else changes; in a valid state the id is neither held nor waiting and is above every waiting id |
| Semaphore.TryAcquire | src/www/functions.js:373-382 | succeeds iff fewer ids are held than the capacity, whatever the queue holds; on success exactly one fresh id is added; on failure held and waiting are unchanged; the counter advances in both cases; the invariant is kept |
| Semaphore.Acquire | src/www/functions.js:391-410 | appends one fresh id to the back of the queue, grants nothing synchronously, leaves held unchanged and schedules one drain |
| Semaphore.Release | src/www/functions.js:416-423 | removes the id from held if present and otherwise leaves held unchanged; the queue is untouched and one drain is scheduled |
| Semaphore.Invoke | src/www/functions.js:436-439 | calling a release handle frees exactly the id it was created for, leaves the queue alone and schedules a drain |
| Semaphore.Drain | src/www/functions.js:445-455 | the granted ids are a prefix of the old queue, in order, and are added to held; it stops only with an empty queue or no free slot; it grants at least one waiter when there is both a waiter and a free slot |
| Semaphore.GrantHeadKeepsInv | src/www/functions.js:447-453 | moving the queue's head into held keeps the invariant and grows held by exactly one |
| Semaphore.DrainKeepsInv | src/www/functions.js:445-455 | a drain keeps the invariant, never grants an id twice, each grant takes one slot, and afterwards the queue is empty or every slot is taken |
| Semaphore.Step | src/www/functions.js:352-456 | each call or timer firing leaves the capacity unchanged; a timer with none pending does nothing; a call never cancels a scheduled drain |
| Semaphore.StepKeepsInv | src/www/functions.js:352-456 | every call and every timer firing keeps the invariant |
| Semaphore.RunKeepsInv | src/www/functions.js:352-456 | over any sequence of calls and drains, held stays within capacity, ids stay below the counter, held and waiting stay disjoint, and the queue stays in issue order |
| Semaphore.Run | src/www/functions.js:352-456 | no sequence of calls and drains changes the capacity |
| Semaphore.StepKeepsNoLostWakeup | src/www/functions.js:387-455 | if a drain is scheduled whenever someone waits while a slot is free, every call and timer firing keeps that so: acquire and release schedule one, tryAcquire only takes slots, and a drain stops with an empty queue or no free slot |
| Semaphore.RunKeepsNoLostWakeup | src/www/functions.js:387-455 | over any sequence of calls and drains, a waiting caller with a free slot always has a drain scheduled |
| Semaphore.NoWakeupEverLost | src/www/functions.js:365-455 | from a newly constructed semaphore, whenever a caller waits and fewer ids are held than the capacity, a drain is scheduled |
| Semaphore.CapacityNeverExceeded | src/www/functions.js:365-371 | from a newly constructed semaphore, no history ever has more holders than the capacity |
| Semaphore.TryAcquireOvertakesQueue | src/www/functions.js:373-382 | with a free slot and callers queued, tryAcquire takes the slot, leaves the queue as it was and does not serve its head |
| Semaphore.DrainIsFifo | src/www/functions.js:445-455 | if a drain grants a queued id, it also grants every id queued before it |
| Semaphore.DoubleReleaseIsIdempotent | src/www/functions.js:416-423 | releasing through the same handle twice leaves held as one release does, and the queue untouched |
| Semaphore.StepKeepsRetired | src/www/functions.js:373-455 | no call or drain brings back an id that was issued and is neither held nor waiting: fresh ids are larger and drains grant only waiting ids |
| Semaphore.RetiredStaysRetired | src/www/functions.js:373-455 | an id that has been given back is never held or queued again, whatever sequence of calls and drains follows |
| Semaphore.StaleReleaseIsNoop | src/www/functions.js:416-439 | a release handle invoked again after any sequence of calls and drains frees nothing and leaves the queue alone, even when its slot has passed to another caller |
| Semaphore.ReleaseWakesOldestWaiter | src/www/functions.js:416-455 | when all slots are taken and callers wait, releasing a held id lets the next drain grant exactly the longest-waiting caller |
| Semaphore.CapacityOneScenario | src/www/functions.js:365-455 | a semaphore built with the default capacity of one: A's tryAcquire succeeds, B's acquire waits, C's tryAcquire fails, A releases, and the pending drains give the slot to B |
| Decimal.NatToString | src/www/functions.js:26 | a number renders as digits only, with no leading zero, one character below ten and two below a hundred |
| Decimal.ParseNatToString | src/www/functions.js:26 | reading a rendered number back gives the number |
| Uptime.Pad2 | src/www/functions.js:22-24 | a number below 100 is written with exactly two digits that read back as the number |
| Uptime.FieldsMakeSeconds | src/www/functions.js:16-20 | days*86400 + hours*3600 + minutes*60 + seconds equals the whole seconds of the duration |
| Uptime.MsToTime | src/www/functions.js:15-27 | the text is `days:hh:mm:ss`: unpadded days equal to duration / 86400000, then three two-digit fields; it reads back with hours < 24, minutes < 60 and seconds < 60, and the fields add up to duration / 1000 seconds |
| Uptime.ParseRendered | src/www/functions.js:26 | reading back `d:hh:mm:ss` gives the numbers its fields spell |
| Comms.Push | src/comms.cpp:64 | under the assumed queue: a push is kept iff the queue holds fewer than five actions |
| Comms.PushAllAccepts | src/comms.cpp:64 | pushing actions one at a time keeps exactly the longest prefix that fits, in order, and the queue never exceeds five |
| Comms.PushKeepsValid | src/comms.cpp:64 | pushing an action the device builds keeps the queue bounded and well-formed |
| Comms.OnStatus | src/comms.cpp:81-141 | Open, Closed, Stopped, Opening and Closing map to the listed current and target states, and Unknown keeps both; the first report activates the door and sets the target to open iff the door is opening or open; the light and both lock fields follow the packet's bits |
| Comms.OnLock | src/comms.cpp:143-169 | On locks the target, Off unlocks it, Toggle flips it; nothing else changes |
| Comms.OnLight | src/comms.cpp:171-196 | On turns the light on, Off turns it off, Toggle and Toggle2 flip it; nothing else changes |
| Comms.OnMotion | src/comms.cpp:198-220 | motion and the motion-sensor flag become true; nothing else changes |
| Comms.Receive | src/comms.cpp:80-225 | a Status packet updates the door and queues nothing; Lock, Light and Motion packets update the door and queue one status request; every other command changes nothing; the rolling code never moves and an active door stays active |
| Comms.SendGetStatus | src/comms.cpp:344-351 | queues one status request that advances the rolling code, if there is room; nothing else changes |
| Comms.DoorCommand | src/comms.cpp:296-313 | queues, as far as room allows, a press (pressed, rolling code left alone) and then a release (not pressed, rolling code advanced) of the same action; door fields unchanged |
| Comms.OpenDoor | src/comms.cpp:315-324 | a no-op while the door is opening, otherwise the Open command pair; with room in the queue it is a no-op only while opening; door fields unchanged |
| Comms.CloseDoor | src/comms.cpp:326-342 | a no-op while the door is closing; an opening door gets the Stop pair then the Close pair; any other door gets the Close pair; door fields unchanged |
| Comms.SetLock | src/comms.cpp:353-369 | the lock target becomes locked iff the value is non-zero, and the Lock command then a status request are queued |
| Comms.SetLight | src/comms.cpp:371-385 | queues the Light command then a status request, without changing the light field |
| Comms.Inc32 | src/comms.cpp:268-269 | adds one to the rolling code, wrapping to zero at 2^32 |
| Comms.TransmitStep | src/comms.cpp:229-276 | on an empty queue or a collision nothing changes; otherwise the head is sent and dropped, even if encoding fails, and the rolling code advances by one iff the head asks for it; a frame is written iff encoding succeeds, using the rolling code from before the advance |
| Comms.LoopStep | src/comms.cpp:71-239 | a byte on the line never sends and leaves the rolling code alone; an incomplete packet changes nothing; a completed packet is handled exactly as `Receive` handles it; an idle line is exactly the transmit step |
| CommsRuns.Step | src/comms.cpp:71-385 | a HomeKit command never sends anything and never moves the rolling code |
| CommsRuns.StepKeepsValid | src/comms.cpp:64-385 | every loop pass and every command keeps the queue bounded and well-formed |
| CommsRuns.RunKeepsValid | src/comms.cpp:64-385 | over any run the queue never holds more than five actions, all of them well-formed |
| CommsRuns.ActiveStaysActive | src/comms.cpp:109-118 | once the door is active it stays active in every run |
| CommsRuns.StepRollingCode | src/comms.cpp:229-276 | one event moves the rolling code by one exactly when it sent an action asking for it |
| CommsRuns.RollingCodeCountsSentIncrements | src/comms.cpp:229-276 | over any run the rolling code advances, modulo 2^32, by the number of sent actions that ask for it |
| CommsRuns.IdleRunsSendInOrder | src/comms.cpp:229-237 | on an idle line the actions sent, followed by those left, are the original queue, whatever collisions occur |
| CommsRuns.LockToggleTwice | src/comms.cpp:153-160 | two lock toggles leave the door as it was |
| CommsRuns.LightToggleTwice | src/comms.cpp:181-184 | two light toggles, with either toggle code, leave the door as it was |
| CommsRuns.StatusMakesCoherent | src/comms.cpp:83-136 | a report naming the door's state, or the one that activates the door, leaves the target coherent with the state, and leaves the current and target lock in agreement |
| CommsRuns.CoherenceIsKept | src/comms.cpp:71-385 | once the target is coherent with the door's state it stays so in every run |
| CommsRuns.StatusIdempotentWhenActive | src/comms.cpp:80-141 | for an active door, the same status report received twice has the effect of receiving it once |
| CommsRuns.StoppedReportOnActivation | src/comms.cpp:92-118 | an inactive door reported Stopped gets a closed target, and the same report received next gives it an open target |
| CommsRuns.DoorCommandQueuesPair | src/comms.cpp:296-313 | with room for two, a door command appends exactly the press and then the release |
| CommsRuns.DoorCommandLosesRelease | src/comms.cpp:296-313 | with room for one, the press is queued and its release is lost |
| CommsRuns.CloseWhileOpeningLosesClose | src/comms.cpp:326-342 | closing an opening door with room for two queues only the Stop pair |

## Left out

- Browser glue in functions.js (`checkStatus`, `checkVersion`, `firmwareUpdate`, `rebootRATGDO`, `setGDO`, `changePassword`, `countdown30`, `dotDotDot`): fetch, DOM, interval timers and alerts, with no logic of their own beyond using the semaphore.
- The inlined MD5 routine in functions.js: a copy of RFC 1321's algorithm, outside the core.
- The semaphore's debug name and the global counter `semaphoreNumber` that numbers semaphores: logging only.
- Real timing of `setTimeout` and promises: replaced by the pending-drain counter and the `FireTimer` event, which may fire in any order relative to other calls.
- Semaphore.NextId: the counter is unbounded; the JavaScript number stops advancing at 2^53, after which ids would repeat. No page lives long enough to issue that many.
- Uptime.MsToTime: models a non-negative integer duration; JavaScript's floating-point arithmetic for durations beyond 2^53 ms is not modelled.
- Hardware and serial plumbing in comms.cpp: `SoftwareSerial`, pin reads and writes, delays, LED timing and the byte-level framing of the reader. A completed packet, a collision and the encoder's verdict are inputs.
- `Packet::encode` and the Security+ 2.0 encoding: Packet.h and secplus2.h are not part of this model. The model records which packet was encoded with which rolling code.
- The command and data of a packet are one datatype, so a command always carries data of its own kind. The C++ reads a union, and Packet.h, which fills it, is not part of this model.
- Comms.OpenDoor: "a no-op only while the door is opening" is stated for a queue with room. On a full queue the assumed queue drops both pushes, so the call is a no-op then too.
- Comms.CloseDoor: "a no-op only while the door is closing" is stated for a queue with room, for the same reason.
- Comms.Push: the queue library is not part of this model. A FIFO of capacity five that drops a push when full is assumed from the `q_init` arguments, not proved.
- The motion timer set from `millis()`: time, not logic.
- Flash persistence of the rolling code and id code, the random id-code generation in `setup_comms`, and the direct transmits of `sync()` during boot.
- HomeKit `notify_*` and `enable_service_*` calls: side-effect callbacks, not modelled.

=== FILE: comms.dfy ===
/**
 The Security+ 2.0 side of the garage-door controller: how packets received
 from the opener update the door's state, how commands are queued for
 sending, and how the main loop sends the head of that queue.

 The state is one immutable record: the door fields HomeKit sees, the
 device's id code and rolling code, and the outgoing queue. The byte-level
 framing, the serial line, the encoder and the HomeKit notifications are
 outside the model; a collision on the bus and the encoder's verdict are
 inputs of the transmit step.
 */
module Comms {
  import opened Wrappers

  /** The outgoing queue is created holding at most five actions. */
  const QueueCapacity := 5

  /** The rolling code is a 32-bit unsigned counter and wraps around. */
  const RollingModulus := 0x1_0000_0000

  type Uint32 = x: nat | x < 0x1_0000_0000
  type Uint8 = x: nat | x < 0x100

  /** HomeKit's view of the door and the lock. */
  datatype CurrentDoorState = CurrOpen | CurrClosed | CurrOpening | CurrClosing | CurrStopped
  datatype TargetDoorState = TgtOpen | TgtClosed
  datatype LockCurrentState = CurrUnlocked | CurrLocked
  datatype LockTargetState = TgtUnlocked | TgtLocked

  /** Values carried in packets on the wire. */
  datatype DoorState = DoorUnknown | DoorOpen | DoorClosed | DoorStopped | DoorOpening | DoorClosing
  datatype LockState = LockOff | LockOn | LockToggle
  datatype LightState = LightOff | LightOn | LightToggle | LightToggle2
  datatype DoorAction = ActClose | ActOpen | ActToggle | ActStop

  /** A packet's command together with the data that command carries. */
  datatype Command =
    | Status(door: DoorState, lightOn: bool, locked: bool)
    | Lock(lockState: LockState)
    | Light(lightState: LightState)
    | Motion
    | DoorActionCmd(action: DoorAction, pressed: bool, buttonId: nat)
    | GetStatus
    | GetOpenings
    | Unsupported(code: nat)

  /** A packet and the id code of the device it is sent from. */
  datatype Packet = Packet(cmd: Command, remoteId: Uint32)

  /** A queued packet, and whether sending it advances the rolling code. */
  datatype PacketAction = PacketAction(pkt: Packet, incCounter: bool)

  /** The fields of the shared `garage_door` record this code reads and writes. */
  datatype GarageDoor = GarageDoor(
    currentState: CurrentDoorState,
    targetState: TargetDoorState,
    active: bool,
    light: bool,
    currentLock: LockCurrentState,
    targetLock: LockTargetState,
    motion: bool,
    hasMotionSensor: bool)

  /** The protocol's state: the door record, this device's id, its rolling
      code and the outgoing queue. */
  datatype State = State(door: GarageDoor, idCode: Uint32, rollingCode: Uint32, queue: seq<PacketAction>)

  /** A frame put on the bus: the packet, encoded with this rolling code. */
  datatype Emission = Emission(pkt: Packet, rollingCode: Uint32)

  /** The result of one transmit step: the new state, the queued action it
      disposed of (if any), and the frame it wrote (if any). */
  datatype TxOutcome = TxOutcome(comms: State, sent: Option<PacketAction>, written: Option<Emission>)

  /* ---------------------------------------------------------------------
     The bounded queue. Its library is not part of the model: it is assumed
     to be a FIFO that silently drops a push when it already holds
     `QueueCapacity` actions (it is created without overwriting).
     --------------------------------------------------------------------- */

  function Min(a: nat, b: nat): nat
  {
    if a < b then a else b
  }

  /** How many more actions `q` can take. */
  function Room(q: seq<PacketAction>): nat
  {
    if |q| < QueueCapacity then QueueCapacity - |q| else 0
  }

  /** The actions of `xs` that pushing them one by one onto `q` keeps: the
      longest prefix that fits. */
  function Accepted(q: seq<PacketAction>, xs: seq<PacketAction>): seq<PacketAction>
  {
    xs[..Min(|xs|, Room(q))]
  }

  function Push(q: seq<PacketAction>, a: PacketAction): (r: seq<PacketAction>)
    ensures r == q + Accepted(q, [a])
  {
    if |q| < QueueCapacity then q + [a] else q
  }

  /** Pushing a sequence of actions, one at a time, in order. */
  function PushAll(q: seq<PacketAction>, xs: seq<PacketAction>): seq<PacketAction>
    decreases |xs|
  {
    if xs == [] then q else PushAll(Push(q, xs[0]), xs[1..])
  }

  /** Pushing one at a time keeps exactly the prefix that fits: once the
      queue is full every later push is lost, and nothing is reordered. */
  lemma {:induction false} PushAllAccepts(q: seq<PacketAction>, xs: seq<PacketAction>)
    ensures PushAll(q, xs) == q + Accepted(q, xs)
    ensures |q| <= QueueCapacity ==> |PushAll(q, xs)| <= QueueCapacity
    decreases |xs|
  {
    if xs != [] {
      var q' := Push(q, xs[0]);
      PushAllAccepts(q', xs[1..]);
      if |q| < QueueCapacity {
        assert q' == q + [xs[0]];
        assert Accepted(q, xs) == [xs[0]] + Accepted(q', xs[1..]);
      } else {
        assert q' == q;
      }
    }
  }

  /* ---------------------------------------------------------------------
     Packets the device builds.
     --------------------------------------------------------------------- */

  /** The status request: it advances the rolling code when sent. */
  function GetStatusAction(id: Uint32): PacketAction
  {
    PacketAction(Packet(GetStatus, id), true)
  }

  /** One half of a button press on the wall console, button id 1. Only the
      release advances the rolling code. */
  function ButtonAction(id: Uint32, action: DoorAction, pressed: bool): PacketAction
  {
    PacketAction(Packet(DoorActionCmd(action, pressed, 1), id), !pressed)
  }

  /** The kinds of action the device itself queues, and the rolling-code
      flag each carries: only a door press leaves the rolling code alone. */
  predicate WellFormed(a: PacketAction, id: Uint32)
  {
    && a.pkt.remoteId == id
    && match a.pkt.cmd
       case DoorActionCmd(_, pressed, button) => button == 1 && a.incCounter == !pressed
       case Lock(ls) => ls != LockToggle && a.incCounter
       case Light(ls) => (ls == LightOn || ls == LightOff) && a.incCounter
       case GetStatus => a.incCounter
       case _ => false
  }

  /** What every reachable state keeps: the queue within its capacity and
      holding only actions the device built itself. */
  predicate Valid(c: State)
  {
    && |c.queue| <= QueueCapacity
    && forall i :: 0 <= i < |c.queue| ==> WellFormed(c.queue[i], c.idCode)
  }

  /** Pushing an action the device built keeps the state valid. */
  lemma PushKeepsValid(c: State, a: PacketAction)
    ensures Valid(c) && WellFormed(a, c.idCode) ==> Valid(c.(queue := Push(c.queue, a)))
  {
    if Valid(c) && WellFormed(a, c.idCode) {
      var q := Push(c.queue, a);
      forall i | 0 <= i < |q|
        ensures WellFormed(q[i], c.idCode)
      {
        if i < |c.queue| {
          assert q[i] == c.queue[i];
        }
      }
    }
  }

  /* ---------------------------------------------------------------------
     Received packets.
     --------------------------------------------------------------------- */

  /** The door fields a status report sets, before activation is handled.
      An unknown door state keeps the previous fields. */
  function ReportedDoor(d: GarageDoor, ds: DoorState): (CurrentDoorState, TargetDoorState)
  {
    match ds
    case DoorOpen => (CurrOpen, TgtOpen)
    case DoorClosed => (CurrClosed, TgtClosed)
    case DoorStopped => (CurrStopped, TgtOpen)
    case DoorOpening => (CurrOpening, TgtOpen)
    case DoorClosing => (CurrClosing, TgtClosed)
    case DoorUnknown => (d.currentState, d.targetState)
  }

  /** A status packet. The first one activates the door, and then the target
      is derived from the current state instead: open for an opening or open
      door, closed otherwise. The light and both lock fields follow the
      packet's bits. */
  function OnStatus(d: GarageDoor, ds: DoorState, lightOn: bool, locked: bool): (r: GarageDoor)
    ensures r.active
    ensures r.motion == d.motion && r.hasMotionSensor == d.hasMotionSensor
    ensures ds == DoorOpen ==> r.currentState == CurrOpen
    ensures ds == DoorClosed ==> r.currentState == CurrClosed
    ensures ds == DoorStopped ==> r.currentState == CurrStopped
    ensures ds == DoorOpening ==> r.currentState == CurrOpening
    ensures ds == DoorClosing ==> r.currentState == CurrClosing
    ensures ds == DoorUnknown ==> r.currentState == d.currentState
    ensures d.active && ds == DoorUnknown ==> r.targetState == d.targetState
    ensures d.active && (ds == DoorOpen || ds == DoorStopped || ds == DoorOpening) ==> r.targetState == TgtOpen
    ensures d.active && (ds == DoorClosed || ds == DoorClosing) ==> r.targetState == TgtClosed
    ensures !d.active ==> (r.targetState == TgtOpen <==> r.currentState == CurrOpening || r.currentState == CurrOpen)
    ensures r.light == lightOn
    ensures r.currentLock == CurrLocked <==> locked
    ensures r.targetLock == TgtLocked <==> locked
  {
    var (cur, tgt) := ReportedDoor(d, ds);
    var tgt' := if d.active then tgt
                else if cur == CurrOpening || cur == CurrOpen then TgtOpen
                else TgtClosed;
    d.(currentState := cur, targetState := tgt', active := true, light := lightOn,
       currentLock := if locked then CurrLocked else CurrUnlocked,
       targetLock := if locked then TgtLocked else TgtUnlocked)
  }

  /** A lock packet from a wall console: only the lock target moves. */
  function OnLock(d: GarageDoor, ls: LockState): (r: GarageDoor)
    ensures r == d.(targetLock := r.targetLock)
    ensures ls == LockOn ==> r.targetLock == TgtLocked
    ensures ls == LockOff ==> r.targetLock == TgtUnlocked
    ensures ls == LockToggle ==> r.targetLock != d.targetLock
  {
    var lock := match ls
      case LockOff => TgtUnlocked
      case LockOn => TgtLocked
      case LockToggle => if d.targetLock == TgtLocked then TgtUnlocked else TgtLocked;
    d.(targetLock := lock)
  }

  /** A light packet: only the light moves; both toggle codes flip it. */
  function OnLight(d: GarageDoor, ls: LightState): (r: GarageDoor)
    ensures r == d.(light := r.light)
    ensures ls == LightOn ==> r.light
    ensures ls == LightOff ==> !r.light
    ensures (ls == LightToggle || ls == LightToggle2) ==> r.light == !d.light
  {
    var l := match ls
      case LightOff => false
      case LightOn => true
      case LightToggle => !d.light
      case LightToggle2 => !d.light;
    d.(light := l)
  }

  /** A motion packet: the door has a motion sensor and it sees motion. */
  function OnMotion(d: GarageDoor): (r: GarageDoor)
    ensures r.motion && r.hasMotionSensor
    ensures r.(motion := d.motion, hasMotionSensor := d.hasMotionSensor) == d
  {
    d.(hasMotionSensor := true, motion := true)
  }

  /** A packet completed by the reader. Lock, light and motion packets also
      ask the opener for its status; every other command is ignored. */
  function Receive(c: State, pkt: Packet): (r: State)
    ensures r.idCode == c.idCode && r.rollingCode == c.rollingCode
    ensures pkt.cmd.Status? ==> r.queue == c.queue
    ensures pkt.cmd.Status? ==> r.door == OnStatus(c.door, pkt.cmd.door, pkt.cmd.lightOn, pkt.cmd.locked)
    ensures pkt.cmd.Lock? ==> r.door == OnLock(c.door, pkt.cmd.lockState)
    ensures pkt.cmd.Light? ==> r.door == OnLight(c.door, pkt.cmd.lightState)
    ensures pkt.cmd.Motion? ==> r.door == OnMotion(c.door)
    ensures (pkt.cmd.Lock? || pkt.cmd.Light? || pkt.cmd.Motion?) ==>
              r.queue == c.queue + Accepted(c.queue, [GetStatusAction(c.idCode)])
    ensures !(pkt.cmd.Status? || pkt.cmd.Lock? || pkt.cmd.Light? || pkt.cmd.Motion?) ==> r == c
    ensures c.door.active ==> r.door.active
    ensures Valid(c) ==> Valid(r)
  {
    match pkt.cmd
    case Status(ds, lightOn, locked) => c.(door := OnStatus(c.door, ds, lightOn, locked))
    case Lock(ls) =>
      PushKeepsValid(c, GetStatusAction(c.idCode));
      c.(door := OnLock(c.door, ls), queue := Push(c.queue, GetStatusAction(c.idCode)))
    case Light(ls) =>
      PushKeepsValid(c, GetStatusAction(c.idCode));
      c.(door := OnLight(c.door, ls), queue := Push(c.queue, GetStatusAction(c.idCode)))
    case Motion =>
      PushKeepsValid(c, GetStatusAction(c.idCode));
      c.(door := OnMotion(c.door), queue := Push(c.queue, GetStatusAction(c.idCode)))
    case _ => c
  }

  /* ---------------------------------------------------------------------
     Commands from HomeKit.
     --------------------------------------------------------------------- */

  /** `send_get_status`: queue a status request. */
  function SendGetStatus(c: State): (r: State)
    ensures r.door == c.door && r.idCode == c.idCode && r.rollingCode == c.rollingCode
    ensures r.queue == c.queue + Accepted(c.queue, [GetStatusAction(c.idCode)])
    ensures Valid(c) ==> Valid(r)
  {
    PushKeepsValid(c, GetStatusAction(c.idCode));
    c.(queue := Push(c.queue, GetStatusAction(c.idCode)))
  }

  /** `door_command`: queue a press of the button followed by its release;
      the two differ only in the pressed flag and in the rolling-code flag. */
  function DoorCommand(c: State, action: DoorAction): (r: State)
    ensures r.door == c.door && r.idCode == c.idCode && r.rollingCode == c.rollingCode
    ensures r.queue == c.queue + Accepted(c.queue,
              [PacketAction(Packet(DoorActionCmd(action, true, 1), c.idCode), false),
               PacketAction(Packet(DoorActionCmd(action, false, 1), c.idCode), true)])
    ensures Valid(c) ==> Valid(r)
  {
    var press := ButtonAction(c.idCode, action, true);
    var release := ButtonAction(c.idCode, action, false);
    PushKeepsValid(c, press);
    PushKeepsValid(c.(queue := Push(c.queue, press)), release);
    PushAllAccepts(c.queue, [press, release]);
    assert PushAll(c.queue, [press, release]) == Push(Push(c.queue, press), release);
    c.(queue := Push(Push(c.queue, press), release))
  }

  /** `open_door`: ignored while the door is already opening. */
  function OpenDoor(c: State): (r: State)
    ensures r.door == c.door && r.rollingCode == c.rollingCode
    ensures c.door.currentState == CurrOpening ==> r == c
    ensures c.door.currentState != CurrOpening ==> r == DoorCommand(c, ActOpen)
    ensures c.door.currentState != CurrOpening && |c.queue| < QueueCapacity ==> r != c
    ensures Valid(c) ==> Valid(r)
  {
    if c.door.currentState == CurrOpening then c else DoorCommand(c, ActOpen)
  }

  /** `close_door`: ignored while the door is already closing; an opening
      door is first sent a stop, then the close. */
  function CloseDoor(c: State): (r: State)
    ensures r.door == c.door && r.rollingCode == c.rollingCode
    ensures c.door.currentState == CurrClosing ==> r == c
    ensures c.door.currentState == CurrOpening ==> r == DoorCommand(DoorCommand(c, ActStop), ActClose)
    ensures c.door.currentState != CurrClosing && c.door.currentState != CurrOpening ==>
              r == DoorCommand(c, ActClose)
    ensures c.door.currentState != CurrClosing && |c.queue| < QueueCapacity ==> r != c
    ensures Valid(c) ==> Valid(r)
  {
    if c.door.currentState == CurrClosing then c
    else if c.door.currentState == CurrOpening then DoorCommand(DoorCommand(c, ActStop), ActClose)
    else DoorCommand(c, ActClose)
  }

  /** `set_lock`: any non-zero value locks. The lock target is set at once,
      and the lock command is queued followed by a status request. */
  function SetLock(c: State, value: Uint8): (r: State)
    ensures r.door == c.door.(targetLock := r.door.targetLock)
    ensures r.door.targetLock == TgtLocked <==> value != 0
    ensures r.idCode == c.idCode && r.rollingCode == c.rollingCode
    ensures r.queue == c.queue + Accepted(c.queue,
              [PacketAction(Packet(Lock(if value != 0 then LockOn else LockOff), c.idCode), true),
               GetStatusAction(c.idCode)])
    ensures Valid(c) ==> Valid(r)
  {
    var ls := if value != 0 then LockOn else LockOff;
    var tgt := if value != 0 then TgtLocked else TgtUnlocked;
    var a := PacketAction(Packet(Lock(ls), c.idCode), true);
    var c' := c.(door := c.door.(targetLock := tgt));
    PushKeepsValid(c', a);
    var r := SendGetStatus(c'.(queue := Push(c'.queue, a)));
    PushAllAccepts(c.queue, [a, GetStatusAction(c.idCode)]);
    assert PushAll(c.queue, [a, GetStatusAction(c.idCode)]) == r.queue;
    r
  }

  /** `set_light`: the light command and a status request are queued; the
      light field waits for the opener's report. */
  function SetLight(c: State, value: bool): (r: State)
    ensures r.door == c.door && r.idCode == c.idCode && r.rollingCode == c.rollingCode
    ensures r.queue == c.queue + Accepted(c.queue,
              [PacketAction(Packet(Light(if value then LightOn else LightOff), c.idCode), true),
               GetStatusAction(c.idCode)])
    ensures Valid(c) ==> Valid(r)
  {
    var a := PacketAction(Packet(Light(if value then LightOn else LightOff), c.idCode), true);
    PushKeepsValid(c, a);
    var r := SendGetStatus(c.(queue := Push(c.queue, a)));
    PushAllAccepts(c.queue, [a, GetStatusAction(c.idCode)]);
    assert PushAll(c.queue, [a, GetStatusAction(c.idCode)]) == r.queue;
    r
  }

  /* ---------------------------------------------------------------------
     Sending.
     --------------------------------------------------------------------- */

  /** Adds one to a 32-bit counter. */
  function Inc32(x: Uint32): (r: Uint32)
    ensures x + 1 < RollingModulus ==> r == x + 1
    ensures x + 1 == RollingModulus ==> r == 0
  {
    (x + 1) % RollingModulus
  }

  /** The idle branch of the main loop: peek at the head of the queue and
      try to send it. A collision on the bus makes the attempt fail and the
      head stays queued for a later retry. Otherwise the attempt counts as
      done whether or not the encoder accepted the packet: the head is
      dropped and, if it asks for it, the rolling code advances. The frame
      is encoded with the rolling code from before the advance. */
  function TransmitStep(c: State, collision: bool, encodeOk: bool): (r: TxOutcome)
    ensures r.comms.door == c.door && r.comms.idCode == c.idCode
    ensures |c.queue| == 0 || collision ==> r.comms == c && r.sent == None && r.written == None
    ensures |c.queue| > 0 && !collision ==>
              && r.sent == Some(c.queue[0])
              && r.comms.queue == c.queue[1..]
              && (c.queue[0].incCounter ==> r.comms.rollingCode == Inc32(c.rollingCode))
              && (!c.queue[0].incCounter ==> r.comms.rollingCode == c.rollingCode)
    ensures r.written.Some? <==> |c.queue| > 0 && !collision && encodeOk
    ensures r.written.Some? ==> r.written.value == Emission(c.queue[0].pkt, c.rollingCode)
    ensures Valid(c) ==> Valid(r.comms)
  {
    if |c.queue| == 0 || collision then TxOutcome(c, None, None)
    else
      var head := c.queue[0];
      var written := if encodeOk then Some(Emission(head.pkt, c.rollingCode)) else None;
      var rolling := if head.incCounter then Inc32(c.rollingCode) else c.rollingCode;
      var r := c.(rollingCode := rolling, queue := c.queue[1..]);
      assert forall i :: 0 <= i < |r.queue| ==> r.queue[i] == c.queue[i + 1];
      TxOutcome(r, Some(head), written)
  }

  /** What one pass of the main loop sees: a byte on the serial line, which
      may complete a packet, or an idle line, on which it tries to send. */
  datatype LoopInput = SerialByte(completed: Option<Packet>) | SerialIdle(collision: bool, encodeOk: bool)

  /** One pass of `comms_loop`. */
  function LoopStep(c: State, input: LoopInput): (r: TxOutcome)
    ensures input.SerialByte? ==> r.sent == None && r.written == None && r.comms.rollingCode == c.rollingCode
    ensures input.SerialByte? && input.completed.None? ==> r.comms == c
    ensures input.SerialByte? && input.completed.Some? ==> r.comms == Receive(c, input.completed.value)
    ensures input.SerialIdle? ==> r == TransmitStep(c, input.collision, input.encodeOk)
    ensures c.door.active ==> r.comms.door.active
    ensures r.comms.idCode == c.idCode
    ensures Valid(c) ==> Valid(r.comms)
  {
    match input
    case SerialByte(None) => TxOutcome(c, None, None)
    case SerialByte(Some(pkt)) => TxOutcome(Receive(c, pkt), None, None)
    case SerialIdle(collision, encodeOk) => TransmitStep(c, collision, encodeOk)
  }
}

=== FILE: comms_runs.dfy ===
/**
 Properties of the garage-door protocol over single packets and over whole
 runs: any interleaving of main-loop passes and HomeKit commands.
 */
module CommsRuns {
  import opened Wrappers
  import opened Comms

  /** Everything that can happen to the protocol state: a pass of the main
      loop, or one of the commands HomeKit issues. */
  datatype Event =
    | Loop(input: LoopInput)
    | OpenDoorRequest
    | CloseDoorRequest
    | SetLockRequest(lockValue: Uint8)
    | SetLightRequest(lightValue: bool)

  function Step(c: State, e: Event): (r: TxOutcome)
    ensures e.Loop? || (r.sent == None && r.comms.rollingCode == c.rollingCode)
  {
    match e
    case Loop(input) => LoopStep(c, input)
    case OpenDoorRequest => TxOutcome(OpenDoor(c), None, None)
    case CloseDoorRequest => TxOutcome(CloseDoor(c), None, None)
    case SetLockRequest(v) => TxOutcome(SetLock(c, v), None, None)
    case SetLightRequest(v) => TxOutcome(SetLight(c, v), None, None)
  }

  function OptionToSeq(o: Option<PacketAction>): seq<PacketAction>
  {
    if o.Some? then [o.value] else []
  }

  /** The state after a sequence of events, and the queued actions sent on
      the way, in the order they left the queue. */
  function Run(c: State, es: seq<Event>): (State, seq<PacketAction>)
    decreases |es|
  {
    if es == [] then (c, [])
    else
      var o := Step(c, es[0]);
      var (d, sent) := Run(o.comms, es[1..]);
      (d, OptionToSeq(o.sent) + sent)
  }

  /** How many of the actions ask for the rolling code to advance. */
  function CountInc(xs: seq<PacketAction>): nat
    decreases |xs|
  {
    if xs == [] then 0 else (if xs[0].incCounter then 1 else 0) + CountInc(xs[1..])
  }

  /** Every event keeps the queue bounded and holding well-formed actions. */
  lemma StepKeepsValid(c: State, e: Event)
    requires Valid(c)
    ensures Valid(Step(c, e).comms)
    ensures Step(c, e).comms.idCode == c.idCode
  {
  }

  lemma {:induction false} RunKeepsValid(c: State, es: seq<Event>)
    requires Valid(c)
    ensures Valid(Run(c, es).0)
    ensures |Run(c, es).0.queue| <= QueueCapacity
    decreases |es|
  {
    if es != [] {
      StepKeepsValid(c, es[0]);
      RunKeepsValid(Step(c, es[0]).comms, es[1..]);
    }
  }

  /** Once the door is active it stays active. */
  lemma {:induction false} ActiveStaysActive(c: State, es: seq<Event>)
    requires c.door.active
    ensures Run(c, es).0.door.active
    decreases |es|
  {
    if es != [] {
      ActiveStaysActive(Step(c, es[0]).comms, es[1..]);
    }
  }

  lemma ModSucc(x: nat, y: nat)
    ensures ((x % RollingModulus) + y) % RollingModulus == (x + y) % RollingModulus
  {
    var q := x / RollingModulus;
    assert x == q * RollingModulus + x % RollingModulus;
  }

  /** 1 if the step sent an action that advances the rolling code. */
  function SentInc(o: TxOutcome): nat
  {
    if o.sent.Some? && o.sent.value.incCounter then 1 else 0
  }

  /** One event moves the rolling code by what it sent. */
  lemma StepRollingCode(c: State, e: Event)
    ensures Step(c, e).comms.rollingCode == (c.rollingCode + SentInc(Step(c, e))) % RollingModulus
  {
    var o := Step(c, e);
    if SentInc(o) == 0 {
      assert o.comms.rollingCode == c.rollingCode;
    }
  }

  /** The rolling code advances, modulo 2^32, by exactly the number of sent
      actions that ask for it; nothing else moves it. */
  lemma {:induction false} RollingCodeCountsSentIncrements(c: State, es: seq<Event>)
    ensures Run(c, es).0.rollingCode == (c.rollingCode + CountInc(Run(c, es).1)) % RollingModulus
    decreases |es|
  {
    if es != [] {
      var o := Step(c, es[0]);
      var (d, rest) := Run(o.comms, es[1..]);
      RollingCodeCountsSentIncrements(o.comms, es[1..]);
      StepRollingCode(c, es[0]);
      var sent := OptionToSeq(o.sent) + rest;
      assert Run(c, es) == (d, sent);
      assert CountInc(sent) == SentInc(o) + CountInc(rest) by {
        if o.sent.Some? {
          assert sent[0] == o.sent.value && sent[1..] == rest;
        } else {
          assert sent == rest;
        }
      }
      ModSucc(c.rollingCode + SentInc(o), CountInc(rest));
    }
  }

  /** An event that only sends. */
  predicate IsIdlePass(e: Event)
  {
    e.Loop? && e.input.SerialIdle?
  }

  /** While no packet arrives and no command is issued, the queue drains in
      order: what was sent followed by what is left is the original queue,
      whatever collisions happened. */
  lemma {:induction false} IdleRunsSendInOrder(c: State, es: seq<Event>)
    requires forall i :: 0 <= i < |es| ==> IsIdlePass(es[i])
    ensures Run(c, es).1 + Run(c, es).0.queue == c.queue
    decreases |es|
  {
    if es != [] {
      var o := Step(c, es[0]);
      IdleRunsSendInOrder(o.comms, es[1..]);
      if o.sent.Some? {
        assert c.queue == [c.queue[0]] + c.queue[1..];
      }
    }
  }

  /* ---------------------------------------------------------------------
     Single packets.
     --------------------------------------------------------------------- */

  /** The same lock toggle received twice leaves the door exactly as it was. */
  lemma LockToggleTwice(c: State, p: Packet)
    requires p.cmd == Lock(LockToggle)
    ensures Receive(Receive(c, p), p).door == c.door
  {
  }

  /** Two light toggles, with either toggle code, leave the door as it was. */
  lemma LightToggleTwice(c: State, p: Packet, p': Packet)
    requires p.cmd.Light? && (p.cmd.lightState == LightToggle || p.cmd.lightState == LightToggle2)
    requires p'.cmd.Light? && (p'.cmd.lightState == LightToggle || p'.cmd.lightState == LightToggle2)
    ensures Receive(Receive(c, p), p').door == c.door
  {
  }

  /** The door's target agrees with a settled or moving door: an open or
      opening door is meant to be open, a closed or closing one closed. A
      stopped door may have either target. */
  predicate Coherent(d: GarageDoor)
  {
    && (d.currentState == CurrOpen || d.currentState == CurrOpening ==> d.targetState == TgtOpen)
    && (d.currentState == CurrClosed || d.currentState == CurrClosing ==> d.targetState == TgtClosed)
  }

  /** A status report that names the door's state, or the one that activates
      the door, leaves the door coherent; and a coherent door stays coherent
      under every report. */
  lemma StatusMakesCoherent(d: GarageDoor, ds: DoorState, lightOn: bool, locked: bool)
    requires ds != DoorUnknown || !d.active || Coherent(d)
    ensures Coherent(OnStatus(d, ds, lightOn, locked))
    ensures OnStatus(d, ds, lightOn, locked).currentLock == CurrLocked
            <==> OnStatus(d, ds, lightOn, locked).targetLock == TgtLocked
  {
  }

  /** Coherence of the door, once reached, survives every event. */
  lemma {:induction false} CoherenceIsKept(c: State, es: seq<Event>)
    requires Coherent(c.door)
    ensures Coherent(Run(c, es).0.door)
    decreases |es|
  {
    if es != [] {
      var e := es[0];
      if e.Loop? && e.input.SerialByte? && e.input.completed.Some? && e.input.completed.value.cmd.Status? {
        var cmd := e.input.completed.value.cmd;
        StatusMakesCoherent(c.door, cmd.door, cmd.lightOn, cmd.locked);
      }
      CoherenceIsKept(Step(c, e).comms, es[1..]);
    }
  }

  /** Once the door is active, receiving the same status report again
      changes nothing. */
  lemma StatusIdempotentWhenActive(d: GarageDoor, ds: DoorState, lightOn: bool, locked: bool)
    requires d.active
    ensures OnStatus(OnStatus(d, ds, lightOn, locked), ds, lightOn, locked) == OnStatus(d, ds, lightOn, locked)
  {
  }

  /** Before activation it does not: a stopped door is first given a closed
      target, and the very same report received next turns it to open. */
  lemma StoppedReportOnActivation(d: GarageDoor, lightOn: bool, locked: bool)
    requires !d.active
    ensures OnStatus(d, DoorStopped, lightOn, locked).targetState == TgtClosed
    ensures OnStatus(OnStatus(d, DoorStopped, lightOn, locked), DoorStopped, lightOn, locked).targetState == TgtOpen
  {
  }

  /* ---------------------------------------------------------------------
     Door commands and the bounded queue.
     --------------------------------------------------------------------- */

  /** With room for both, a door command queues the press and then the
      release, and nothing else. */
  lemma DoorCommandQueuesPair(c: State, action: DoorAction)
    requires |c.queue| + 2 <= QueueCapacity
    ensures DoorCommand(c, action).queue
            == c.queue + [PacketAction(Packet(DoorActionCmd(action, true, 1), c.idCode), false),
                          PacketAction(Packet(DoorActionCmd(action, false, 1), c.idCode), true)]
  {
  }

  /** With room for one, the press is queued and its release is lost. */
  lemma DoorCommandLosesRelease(c: State, action: DoorAction)
    requires |c.queue| == QueueCapacity - 1
    ensures DoorCommand(c, action).queue
            == c.queue + [PacketAction(Packet(DoorActionCmd(action, true, 1), c.idCode), false)]
  {
  }

  /** Closing an opening door when only two places are free: the stop goes
      out, the close is lost entirely. */
  lemma CloseWhileOpeningLosesClose(c: State)
    requires c.door.currentState == CurrOpening && |c.queue| == QueueCapacity - 2
    ensures CloseDoor(c).queue
            == c.queue + [PacketAction(Packet(DoorActionCmd(ActStop, true, 1), c.idCode), false),
                          PacketAction(Packet(DoorActionCmd(ActStop, false, 1), c.idCode), true)]
  {
  }
}

=== FILE: decimal.dfy ===
/**
 Decimal rendering of natural numbers (no sign, no leading zeros), and the
 parser that reads such a rendering back. This is what JavaScript's
 number-to-string conversion gives for the integers the uptime text uses;
 from 10^21 on JavaScript switches to exponent form, and above 2^53 its
 numbers are no longer exact integers, neither of which is modelled.
 */
module Decimal {

  predicate IsDigit(ch: char)
  {
    '0' <= ch <= '9'
  }

  predicate AllDigits(s: string)
  {
    forall i :: 0 <= i < |s| ==> IsDigit(s[i])
  }

  function DigitValue(ch: char): (d: nat)
    requires IsDigit(ch)
    ensures d < 10
  {
    (ch as int) - ('0' as int)
  }

  function DigitChar(d: nat): (ch: char)
    requires d < 10
    ensures IsDigit(ch) && DigitValue(ch) == d
  {
    (('0' as int) + d) as char
  }

  /** The decimal rendering of `n`: only digits, never a leading zero, one
      character for a one-digit number and two for a two-digit number. */
  function NatToString(n: nat): (s: string)
    decreases n
    ensures AllDigits(s) && |s| >= 1
    ensures |s| > 1 ==> s[0] != '0'
    ensures n < 10 ==> |s| == 1
    ensures 10 <= n < 100 ==> |s| == 2
  {
    if n < 10 then [DigitChar(n)] else NatToString(n / 10) + [DigitChar(n % 10)]
  }

  /** Reads a string of digits as a decimal number; the empty string reads
      as zero. */
  function ParseNat(s: string): nat
    requires AllDigits(s)
    decreases |s|
  {
    if s == [] then 0 else ParseNat(s[..|s| - 1]) * 10 + DigitValue(s[|s| - 1])
  }

  /** Parsing inverts rendering. */
  lemma {:induction false} ParseNatToString(n: nat)
    ensures ParseNat(NatToString(n)) == n
    decreases n
  {
    var s := NatToString(n);
    if n >= 10 {
      ParseNatToString(n / 10);
      assert s[..|s| - 1] == NatToString(n / 10);
    }
  }
}

=== FILE: semaphore.dfy ===
/**
 A counting semaphore that serialises asynchronous callers of the web page's
 fetch requests, as a pure state machine.

 The page runs single-threaded. Everything asynchronous in the class comes
 from one `setTimeout(..., 0)` that `acquire` and `release` use to schedule
 the routine that hands free slots to queued callers. Here that scheduling
 is a counter of pending timers, and the environment fires one of them with
 a `FireTimer` event. A promise being resolved is the waiter's id moving
 from `waiting` to `held`.
 */
module Semaphore {

  /** Ids come from the per-semaphore counter `_nextSemaphoreId`. */
  type Id = nat

  /** The semaphore's state.
      `max` is `_maxSemaphores`, `nextId` is `_nextSemaphoreId`, `held` is
      `_currentSemaphores`, `waiting` holds the ids of `_waitingCallers` in
      queue order, and `pendingDrains` counts the drains scheduled with
      `setTimeout` that have not fired yet. */
  datatype Sem = Sem(max: nat, nextId: Id, held: set<Id>, waiting: seq<Id>, pendingDrains: nat)

  /** The function returned to a caller that obtained a slot: calling it
      releases `id`. */
  datatype ReleaseHandle = ReleaseHandle(id: Id)

  /** What `tryAcquire` does: return a release function, or throw. */
  datatype TryOutcome = Acquired(release: ReleaseHandle) | NoSemaphoreAvailable

  /** Everything that can happen to a semaphore: a call of one of its three
      public operations, or one of the scheduled drains firing. */
  datatype Event = CallTryAcquire | CallAcquire | CallRelease(id: Id) | FireTimer

  function SetOf(q: seq<Id>): set<Id>
  {
    set x | x in q
  }

  predicate StrictlyIncreasing(q: seq<Id>)
  {
    forall i, j :: 0 <= i < j < |q| ==> q[i] < q[j]
  }

  /** The invariant every reachable semaphore keeps: never more holders than
      slots, every id in use already issued, nobody both holding and
      waiting, and the queue in issue order. */
  predicate Inv(s: Sem)
  {
    && |s.held| <= s.max
    && (forall x :: x in s.held ==> x < s.nextId)
    && (forall i :: 0 <= i < |s.waiting| ==> s.waiting[i] < s.nextId && s.waiting[i] !in s.held)
    && StrictlyIncreasing(s.waiting)
  }

  /** `hasAvailableSemaphores`: a slot is free. */
  predicate HasAvailable(s: Sem)
  {
    |s.held| < s.max
  }

  /** In a valid state a slot is free exactly when granting the next id
      keeps the invariant. */
  lemma HasAvailableMeansRoom(s: Sem)
    requires Inv(s)
    ensures HasAvailable(s) <==> Inv(s.(held := s.held + {s.nextId}, nextId := s.nextId + 1))
  {
    assert s.nextId !in s.held;
    assert |s.held + {s.nextId}| == |s.held| + 1;
  }

  lemma {:induction false} IncreasingSetSize(q: seq<Id>)
    requires StrictlyIncreasing(q)
    ensures |SetOf(q)| == |q|
  {
    if q != [] {
      var last := q[|q| - 1];
      var init := q[..|q| - 1];
      assert q == init + [last];
      assert SetOf(q) == SetOf(init) + {last};
      assert last !in SetOf(init) by {
        forall i | 0 <= i < |init|
          ensures init[i] != last
        {
          assert init[i] == q[i];
        }
      }
      IncreasingSetSize(init);
    }
  }

  /** The constructor, `new Semaphore(count = 1)`. The count is not
      validated, so a semaphore of capacity zero is possible (every caller
      then waits for ever). Left out, the count is one: a mutex. */
  function New(count: nat := 1): (s: Sem)
    ensures Inv(s)
    ensures s.max == count && s.nextId == 0 && s.held == {} && s.waiting == [] && s.pendingDrains == 0
  {
    Sem(count, 0, {}, [], 0)
  }

  /** `nextSemaphoreId`: hands out the counter's value and advances it. The
      id handed out is in use by nobody. */
  function NextId(s: Sem): (r: (Sem, Id))
    ensures r.1 == s.nextId && r.0.nextId == s.nextId + 1
    ensures r.0 == s.(nextId := r.0.nextId)
    ensures Inv(s) ==> r.1 !in s.held && r.1 !in s.waiting
    ensures Inv(s) ==> forall i :: 0 <= i < |s.waiting| ==> s.waiting[i] < r.1
  {
    (s.(nextId := s.nextId + 1), s.nextId)
  }

  /** `tryAcquire`: takes a fresh id first, then grants it if a slot is free
      and otherwise throws. The waiting queue is not looked at. */
  function TryAcquire(s: Sem): (r: (Sem, TryOutcome))
    ensures r.0.nextId == s.nextId + 1
    ensures r.0.max == s.max && r.0.waiting == s.waiting && r.0.pendingDrains == s.pendingDrains
    ensures r.1.Acquired? <==> HasAvailable(s)
    ensures r.1.Acquired? ==> r.1.release.id == s.nextId && r.0.held == s.held + {s.nextId}
    ensures r.1.NoSemaphoreAvailable? ==> r.0.held == s.held
    ensures Inv(s) ==> Inv(r.0)
    ensures Inv(s) && r.1.Acquired? ==> |r.0.held| == |s.held| + 1
  {
    var (t, id) := NextId(s);
    if HasAvailable(s) then (t.(held := t.held + {id}), Acquired(ReleaseHandle(id)))
    else (t, NoSemaphoreAvailable)
  }

  /** `acquire`: takes a fresh id, queues the caller with it and schedules a
      drain. Nothing is granted synchronously, even when a slot is free. */
  function Acquire(s: Sem): (r: (Sem, Id))
    ensures r.1 == s.nextId && r.0.nextId == s.nextId + 1
    ensures r.0.waiting == s.waiting + [r.1]
    ensures r.0.held == s.held && r.0.max == s.max
    ensures r.0.pendingDrains == s.pendingDrains + 1
    ensures Inv(s) ==> Inv(r.0)
  {
    var (t, id) := NextId(s);
    (t.(waiting := t.waiting + [id], pendingDrains := t.pendingDrains + 1), id)
  }

  /** `release(id)`: gives the slot `id` back if it is held, ignores it
      otherwise, and schedules a drain in both cases. */
  function Release(s: Sem, id: Id): (r: Sem)
    ensures r.held == s.held - {id}
    ensures id in s.held ==> |r.held| == |s.held| - 1
    ensures id !in s.held ==> r.held == s.held
    ensures r.max == s.max && r.nextId == s.nextId && r.waiting == s.waiting
    ensures r.pendingDrains == s.pendingDrains + 1
    ensures Inv(s) ==> Inv(r)
  {
    var held := if id in s.held then s.held - {id} else s.held;
    s.(held := held, pendingDrains := s.pendingDrains + 1)
  }

  /** Calling a release function, the closure `createReleaseFunction(id)`
      made. */
  function Invoke(s: Sem, h: ReleaseHandle): (r: Sem)
    ensures r.held == s.held - {h.id} && r.waiting == s.waiting
    ensures r.pendingDrains == s.pendingDrains + 1
  {
    Release(s, h.id)
  }

  /** `treatPendingCallers`: while someone waits and a slot is free, take the
      head of the queue and add its id to `held`. Returns the ids granted,
      in the order their promises are resolved. */
  function Drain(s: Sem): (r: (Sem, seq<Id>))
    decreases |s.waiting|
    ensures s.waiting == r.1 + r.0.waiting
    ensures r.0.held == s.held + SetOf(r.1)
    ensures r.0.max == s.max && r.0.nextId == s.nextId && r.0.pendingDrains == s.pendingDrains
    ensures r.0.waiting == [] || !HasAvailable(r.0)
    ensures |s.waiting| > 0 && HasAvailable(s) ==> |r.1| > 0
  {
    if |s.waiting| > 0 && HasAvailable(s) then
      var head := s.waiting[0];
      var (t, granted) := Drain(s.(held := s.held + {head}, waiting := s.waiting[1..]));
      assert SetOf([head] + granted) == {head} + SetOf(granted);
      (t, [head] + granted)
    else
      (s, [])
  }

  /** Granting the head of the queue one slot keeps the invariant and grows
      `held` by exactly one. */
  lemma GrantHeadKeepsInv(s: Sem)
    requires Inv(s) && |s.waiting| > 0 && HasAvailable(s)
    ensures var t := s.(held := s.held + {s.waiting[0]}, waiting := s.waiting[1..]);
            Inv(t) && |t.held| == |s.held| + 1
  {
    var head := s.waiting[0];
    var t := s.(held := s.held + {head}, waiting := s.waiting[1..]);
    forall i | 0 <= i < |t.waiting|
      ensures t.waiting[i] < t.nextId && t.waiting[i] !in t.held
    {
      assert t.waiting[i] == s.waiting[i + 1];
    }
  }

  /** A drain keeps the invariant; each id it grants takes one more slot,
      and it stops only when the queue is empty or every slot is taken. */
  lemma {:induction false} DrainKeepsInv(s: Sem)
    requires Inv(s)
    ensures Inv(Drain(s).0)
    ensures |Drain(s).0.held| == |s.held| + |Drain(s).1|
    ensures Drain(s).0.waiting == [] || |Drain(s).0.held| == s.max
    ensures |SetOf(Drain(s).1)| == |Drain(s).1|
    decreases |s.waiting|
  {
    if |s.waiting| > 0 && HasAvailable(s) {
      GrantHeadKeepsInv(s);
      DrainKeepsInv(s.(held := s.held + {s.waiting[0]}, waiting := s.waiting[1..]));
    }
    var g := Drain(s).1;
    assert g == s.waiting[..|g|];
    assert StrictlyIncreasing(g) by {
      forall i, j | 0 <= i < j < |g|
        ensures g[i] < g[j]
      {
        assert g[i] == s.waiting[i] && g[j] == s.waiting[j];
      }
    }
    IncreasingSetSize(g);
  }

  /** One event. A timer firing when none is pending does nothing. */
  function Step(s: Sem, e: Event): (r: Sem)
    ensures r.max == s.max
    ensures e == FireTimer && s.pendingDrains == 0 ==> r == s
    ensures e != FireTimer ==> r.pendingDrains >= s.pendingDrains
  {
    match e
    case CallTryAcquire => TryAcquire(s).0
    case CallAcquire => Acquire(s).0
    case CallRelease(id) => Release(s, id)
    case FireTimer =>
      if s.pendingDrains == 0 then s
      else Drain(s.(pendingDrains := s.pendingDrains - 1)).0
  }

  /** Every event keeps the invariant. */
  lemma StepKeepsInv(s: Sem, e: Event)
    requires Inv(s)
    ensures Inv(Step(s, e))
  {
    if e.FireTimer? && s.pendingDrains > 0 {
      DrainKeepsInv(s.(pendingDrains := s.pendingDrains - 1));
    }
  }

  /** A sequence of events, applied in order. */
  function Run(s: Sem, es: seq<Event>): (r: Sem)
    ensures r.max == s.max
    decreases |es|
  {
    if es == [] then s else Run(Step(s, es[0]), es[1..])
  }

  /** Whatever sequence of calls and timer firings happens, the invariant
      holds; in particular no more callers hold a slot than there are slots. */
  lemma {:induction false} RunKeepsInv(s: Sem, es: seq<Event>)
    requires Inv(s)
    ensures Inv(Run(s, es))
    ensures |Run(s, es).held| <= s.max
    decreases |es|
  {
    if es != [] {
      StepKeepsInv(s, es[0]);
      RunKeepsInv(Step(s, es[0]), es[1..]);
    }
  }

  /** From a freshly constructed semaphore, any history keeps the bound. */
  lemma {:induction false} CapacityNeverExceeded(count: nat, es: seq<Event>)
    ensures |Run(New(count), es).held| <= count
  {
    RunKeepsInv(New(count), es);
  }

  /** No caller is forgotten: whenever someone waits while a slot is free,
      a drain is still scheduled to hand that slot over. */
  predicate NoLostWakeup(s: Sem)
  {
    |s.waiting| > 0 && HasAvailable(s) ==> s.pendingDrains > 0
  }

  /** Every event keeps a wakeup pending while one is needed: `acquire` and
      `release` schedule a drain, `tryAcquire` only takes slots away, and a
      drain stops only with an empty queue or no free slot. */
  lemma StepKeepsNoLostWakeup(s: Sem, e: Event)
    requires NoLostWakeup(s)
    ensures NoLostWakeup(Step(s, e))
  {
  }

  /** Over any sequence of calls and timer firings, a waiting caller with a
      free slot always has a drain coming. */
  lemma {:induction false} RunKeepsNoLostWakeup(s: Sem, es: seq<Event>)
    requires NoLostWakeup(s)
    ensures NoLostWakeup(Run(s, es))
    decreases |es|
  {
    if es != [] {
      StepKeepsNoLostWakeup(s, es[0]);
      RunKeepsNoLostWakeup(Step(s, es[0]), es[1..]);
    }
  }

  /** From a newly constructed semaphore, no history loses a wakeup. */
  lemma {:induction false} NoWakeupEverLost(count: nat, es: seq<Event>)
    ensures var t := Run(New(count), es);
            |t.waiting| > 0 && |t.held| < count ==> t.pendingDrains > 0
  {
    RunKeepsNoLostWakeup(New(count), es);
    RunKeepsInv(New(count), es);
  }

  /** `tryAcquire` may take a free slot while earlier `acquire` callers are
      still queued for a drain: the queue does not protect them. */
  lemma TryAcquireOvertakesQueue(s: Sem)
    requires Inv(s) && HasAvailable(s) && |s.waiting| > 0
    ensures TryAcquire(s).1.Acquired?
    ensures TryAcquire(s).0.waiting == s.waiting
    ensures s.waiting[0] !in TryAcquire(s).0.held
  {
  }

  /** A drain hands slots out strictly in arrival order: whoever is granted,
      everyone queued before them is granted too, and those still waiting
      keep their relative order. */
  lemma DrainIsFifo(s: Sem, i: nat, j: nat)
    requires Inv(s) && i < j < |s.waiting|
    requires s.waiting[j] in Drain(s).0.held
    ensures s.waiting[i] in Drain(s).0.held
  {
    var (t, g) := Drain(s);
    assert s.waiting == g + t.waiting;
    assert j < |g| by {
      if j >= |g| {
        forall k | 0 <= k < |g|
          ensures g[k] != s.waiting[j]
        {
          assert g[k] == s.waiting[k];
        }
        assert false;
      }
    }
    assert s.waiting[i] == g[i];
  }

  /** Releasing through the same handle twice changes nothing beyond the
      first release (besides scheduling one more, harmless, drain). */
  lemma DoubleReleaseIsIdempotent(s: Sem, h: ReleaseHandle)
    ensures Invoke(Invoke(s, h), h).held == Invoke(s, h).held
    ensures Invoke(Invoke(s, h), h).waiting == s.waiting
  {
  }

  /** An id that was issued but is neither held nor waiting has been given
      back for good. */
  predicate Retired(s: Sem, id: Id)
  {
    id < s.nextId && id !in s.held && id !in s.waiting
  }

  /** One event never brings a retired id back: fresh ids are above it, and
      a drain only grants ids that were waiting. */
  lemma StepKeepsRetired(s: Sem, id: Id, e: Event)
    requires Retired(s, id)
    ensures Retired(Step(s, e), id)
  {
  }

  /** A retired id stays retired whatever happens afterwards. */
  lemma {:induction false} RetiredStaysRetired(s: Sem, id: Id, es: seq<Event>)
    requires Retired(s, id)
    ensures id !in Run(s, es).held && id !in Run(s, es).waiting
    ensures Retired(Run(s, es), id)
    decreases |es|
  {
    if es != [] {
      StepKeepsRetired(s, id, es[0]);
      RetiredStaysRetired(Step(s, es[0]), id, es[1..]);
    }
  }

  /** A stale release handle, invoked again after any number of other calls
      and drains, frees nothing: the slot it once held may meanwhile belong
      to another caller under another id, and that caller keeps it. */
  lemma StaleReleaseIsNoop(s: Sem, h: ReleaseHandle, es: seq<Event>)
    requires Inv(s) && h.id in s.held
    ensures var t := Run(Invoke(s, h), es);
            Invoke(t, h).held == t.held && Invoke(t, h).waiting == t.waiting
  {
    var r := Invoke(s, h);
    assert h.id !in s.waiting;
    assert Retired(r, h.id);
    RetiredStaysRetired(r, h.id, es);
  }

  /** Releasing a held slot when someone waits: the next drain grants the
      slot to the longest-waiting caller, and to nobody else. */
  lemma {:induction false} ReleaseWakesOldestWaiter(s: Sem, id: Id)
    requires Inv(s) && !HasAvailable(s) && id in s.held && |s.waiting| > 0
    ensures Drain(Release(s, id)).1 == [s.waiting[0]]
    ensures Drain(Release(s, id)).0.waiting == s.waiting[1..]
  {
    var r := Release(s, id);
    assert |r.held| == s.max - 1;
    var next := r.(held := r.held + {s.waiting[0]}, waiting := r.waiting[1..]);
    assert |next.held| == s.max;
    assert Drain(next) == (next, []);
  }

  /** The scenario of a capacity-one semaphore: A takes the slot with
      `tryAcquire`, B queues with `acquire`, C's `tryAcquire` fails, A
      releases, and the pending drains then give the slot to B. */
  lemma CapacityOneScenario()
    ensures var s := Run(New(), [CallTryAcquire, CallAcquire, CallTryAcquire, CallRelease(0), FireTimer, FireTimer]);
            s.held == {1} && s.waiting == [] && s.nextId == 3 && s.pendingDrains == 0
  {
    var s0 := New();
    var s1 := Step(s0, CallTryAcquire);
    assert s1 == Sem(1, 1, {0}, [], 0);
    var s2 := Step(s1, CallAcquire);
    assert s2 == Sem(1, 2, {0}, [1], 1);
    var s3 := Step(s2, CallTryAcquire);
    assert TryAcquire(s2).1 == NoSemaphoreAvailable;
    assert s3 == Sem(1, 3, {0}, [1], 1);
    var s4 := Step(s3, CallRelease(0));
    assert s4 == Sem(1, 3, {}, [1], 2);
    var s5 := Step(s4, FireTimer);
    assert Drain(Sem(1, 3, {}, [1], 1)).1 == [1];
    assert s5 == Sem(1, 3, {1}, [], 1);
    var s6 := Step(s5, FireTimer);
    assert s6 == Sem(1, 3, {1}, [], 0);
    var es := [CallTryAcquire, CallAcquire, CallTryAcquire, CallRelease(0), FireTimer, FireTimer];
    assert Run(s0, es) == Run(s1, es[1..]);
    assert Run(s1, es[1..]) == Run(s2, es[2..]);
    assert Run(s2, es[2..]) == Run(s3, es[3..]);
    assert Run(s3, es[3..]) == Run(s4, es[4..]);
    assert Run(s4, es[4..]) == Run(s5, es[5..]);
    assert Run(s5, es[5..]) == Run(s6, []);
  }
}

=== FILE: uptime.dfy ===
/**
 `msToTime`, which turns the device's uptime in milliseconds into the
 `days:hh:mm:ss` text shown on the status page, and a reader for that text.
 */
module Uptime {
  import opened Decimal
  import opened Wrappers

  const MsPerSecond := 1000
  const MsPerMinute := 1000 * 60
  const MsPerHour := 1000 * 60 * 60
  const MsPerDay := 1000 * 60 * 60 * 24

  /** The four fields of the rendered uptime. */
  datatype Uptime = Uptime(days: nat, hours: nat, minutes: nat, seconds: nat)

  function TotalSeconds(u: Uptime): nat
  {
    u.days * 86400 + u.hours * 3600 + u.minutes * 60 + u.seconds
  }

  /** A number below 100 written with exactly two digits: below ten it gets
      a leading "0", otherwise it is rendered as it is. */
  function Pad2(n: nat): (s: string)
    requires n < 100
    ensures |s| == 2 && AllDigits(s)
    ensures ParseNat(s) == n
  {
    ParseNatToString(n);
    if n < 10 then "0" + NatToString(n) else NatToString(n)
  }

  /** The uptime text. The JavaScript divides the (floating point) duration
      by the unit and floors after taking the remainder; for a non-negative
      integer that is integer division followed by the remainder. The
      tenths of a second it also computes are never used. */
  function MsToTime(duration: nat): (s: string)
    ensures |s| >= 10
    ensures s[|s| - 9] == ':' && s[|s| - 6] == ':' && s[|s| - 3] == ':'
    ensures s[..|s| - 9] == NatToString(duration / MsPerDay)
    ensures var u := ParseUptime(s);
            && u.Some?
            && u.value.days == duration / MsPerDay
            && u.value.hours < 24 && u.value.minutes < 60 && u.value.seconds < 60
            && TotalSeconds(u.value) == duration / MsPerSecond
  {
    var seconds := (duration / MsPerSecond) % 60;
    var minutes := (duration / MsPerMinute) % 60;
    var hours := (duration / MsPerHour) % 24;
    var days := duration / MsPerDay;
    var s := NatToString(days) + ":" + Pad2(hours) + ":" + Pad2(minutes) + ":" + Pad2(seconds);
    RenderedSlices(NatToString(days), Pad2(hours), Pad2(minutes), Pad2(seconds));
    ParseRendered(NatToString(days), Pad2(hours), Pad2(minutes), Pad2(seconds));
    ParseNatToString(days);
    FieldsMakeSeconds(duration);
    s
  }

  /** Reads `days:hh:mm:ss` back: at least one day digit, then three fields
      of exactly two digits each. */
  function ParseUptime(s: string): Option<Uptime>
  {
    if |s| < 10 then None
    else
      var n := |s|;
      var days := s[..n - 9];
      var hh := s[n - 8..n - 6];
      var mm := s[n - 5..n - 3];
      var ss := s[n - 2..];
      if s[n - 9] == ':' && s[n - 6] == ':' && s[n - 3] == ':'
         && AllDigits(days) && AllDigits(hh) && AllDigits(mm) && AllDigits(ss)
      then Some(Uptime(ParseNat(days), ParseNat(hh), ParseNat(mm), ParseNat(ss)))
      else None
  }

  /** The three two-digit fields and their separators, as they end the
      uptime text. */
  lemma TailFields(h: string, m: string, sec: string)
    requires |h| == 2 && |m| == 2 && |sec| == 2
    ensures var tail := ":" + h + ":" + m + ":" + sec;
            && |tail| == 9 && tail[0] == ':' && tail[3] == ':' && tail[6] == ':'
            && tail[1..3] == h && tail[4..6] == m && tail[7..] == sec
  {
  }

  /** Where the pieces of `d:h:m:sec` sit in the text. */
  lemma RenderedSlices(d: string, h: string, m: string, sec: string)
    requires |d| >= 1 && |h| == 2 && |m| == 2 && |sec| == 2
    ensures var s := d + ":" + h + ":" + m + ":" + sec;
            && |s| >= 10
            && s[|s| - 9] == ':' && s[|s| - 6] == ':' && s[|s| - 3] == ':'
            && s[..|s| - 9] == d && s[|s| - 8..|s| - 6] == h
            && s[|s| - 5..|s| - 3] == m && s[|s| - 2..] == sec
  {
    var tail := ":" + h + ":" + m + ":" + sec;
    TailFields(h, m, sec);
    var s := d + ":" + h + ":" + m + ":" + sec;
    assert s == d + tail;
    var n := |s|;
    assert s[n - 9..] == tail;
    assert s[n - 8..n - 6] == tail[1..3];
    assert s[n - 5..n - 3] == tail[4..6];
    assert s[n - 2..] == tail[7..];
    assert s[n - 9] == tail[0] && s[n - 6] == tail[3] && s[n - 3] == tail[6];
  }

  /** Reading back `d:h:m:sec` gives the numbers the fields spell. */
  lemma ParseRendered(d: string, h: string, m: string, sec: string)
    requires AllDigits(d) && |d| >= 1
    requires AllDigits(h) && AllDigits(m) && AllDigits(sec) && |h| == 2 && |m| == 2 && |sec| == 2
    ensures ParseUptime(d + ":" + h + ":" + m + ":" + sec)
            == Some(Uptime(ParseNat(d), ParseNat(h), ParseNat(m), ParseNat(sec)))
  {
    RenderedSlices(d, h, m, sec);
  }

  /** The rendered fields add back up to the whole seconds of the duration. */
  lemma FieldsMakeSeconds(duration: nat)
    ensures (duration / MsPerDay) * 86400 + ((duration / MsPerHour) % 24) * 3600
            + ((duration / MsPerMinute) % 60) * 60 + (duration / MsPerSecond) % 60
            == duration / MsPerSecond
  {
    var t := duration / 1000;
    var mins := t / 60;
    var hrs := mins / 60;
    var ds := hrs / 24;
    assert duration / 60000 == mins;
    assert duration / 3600000 == hrs;
    assert duration / 86400000 == ds;
    assert t == mins * 60 + t % 60;
    assert mins == hrs * 60 + mins % 60;
    assert hrs == ds * 24 + hrs % 24;
  }
}

=== FILE: wrappers.dfy ===
/** The optional value shared by the other modules. */
module Wrappers {

  datatype Option<T> = None | Some(value: T)
}
